=== FILE: README.md ===
# Strajk Bowling booking form — a Dafny model

This project models the booking form controller of the Strajk Bowling web
client (`src/components/BookingView.tsx`). The form lets a user reserve
bowling lanes and shoes. It has three parts:

- **The draft and its two edit handlers.** The form keeps its fields as
  mutable state: date, time, lane count, player count, shoe sizes, two
  error slots and a loading flag. Changing the player count resizes the
  shoe list. Changing a shoe field replaces one entry. The invariant "one
  shoe entry per player, at least one player" holds from the start, and
  both handlers keep it. This part is the class `BookingView.BookingForm`.
- **The submit checks.** They run in a fixed order and only the first
  broken rule is reported:
  1. date and time are given;
  2. the shoe count equals the player count;
  3. no shoe entry is blank;
  4. every entry is a number;
  5. every number is within 20..60;
  6. there are at most 4 players per lane.
  Shoe problems go to their own error slot and the others to the general
  slot. A draft that passes every check becomes a `BookingRequest`, whose
  `when` is date, "T" and time. `Validation.Validate` states this, and
  `BookingForm.BeginSubmit` is proved to follow it.
- **The server exchange, with the HTTP layer replaced by its answers.**
  First the API key is fetched and read from one of three body shapes. Only
  if that succeeds is the booking posted. A failed post gets the server's
  message or a fixed default. A successful reply is normalised from one of
  three shapes into one `BookingResponse`. This is module `Replies`.
  `BookingForm.HandleSubmit` puts the three parts together.

The modules are:

- `JsValues`: the JavaScript semantics the form relies on.
  - JSON values.
  - Truthiness, `??` and property reads.
  - `String.prototype.trim`, with ECMAScript's set of white-space and
    line-terminator characters.
  - Number-to-string conversion inside template strings.
- `BookingTypes`: `src/types/booking.ts`.
- `Validation`, `Replies` and `BookingView`: the three parts above.

Inputs the model takes as parameters:

- `JSON.parse` and `response.json()` are one parameter,
  `parse: string -> Option<Value>`. `None` stands for a SyntaxError.
- `Number(s)` on a shoe-size string is a parameter
  `num: string -> Option<int>`. `None` stands for NaN.
- Each `fetch` is an input `Reply`: either an ok flag with the body text,
  or a network failure.

Every property holds for every choice of these inputs.

Behaviour of the code worth noting, which the model keeps:

- `handleSubmit` never checks the lane count itself (`BookingView.tsx:264`).
  With at least one player, a lane count of 0 or less always fails the
  capacity check.
  See `Validation.NoLanesMeansOverCapacity`.
- A failed booking shows the server's `message` only when the decoded
  body is truthy and its `message` is a string.
- There is no guard against a second submit while one is in flight. Only
  the button is disabled. The model adds no guard.
- The capacity message appends "or" to "bana" for more than one lane, so
  it reads "2 banaor." (`BookingView.tsx:103-107`). See
  `Validation.Verdict.Text`.

## Model

| member | source | states |
|---|---|---|
| `JsValues.TrimStartSpec` | src/components/BookingView.tsx:77 | leading white space is removed: the result is the suffix of the input after a run of white space, and it does not start with white space |
| `JsValues.TrimEndSpec` | src/components/BookingView.tsx:77 | trailing white space is removed: the result is the prefix before a run of white space, and it does not end with white space |
| `JsValues.Trim` | src/components/BookingView.tsx:77 | `.trim()` gives a string no longer than its input whose first and last characters are not white space |
| `JsValues.TrimIsCore` | src/components/BookingView.tsx:135-142 | a trimmed string is a slice `s[lo..hi]` of the original with only white space before `lo` and after `hi`, and its first and last characters are not white space |
| `JsValues.TrimEmptyIffAllWhiteSpace` | src/components/BookingView.tsx:77 | an entry trims to "" exactly when all its characters are white space; this is the blank-shoe test |
| `JsValues.TrimIdempotent` | src/components/BookingView.tsx:135-142 | trimming a trimmed key changes nothing |
| `Validation.AnySatisfies` | src/components/BookingView.tsx:77-94 | the `some` scan behind the blank, NaN and range checks is true exactly when some element meets the test |
| `Validation.Numbers` | src/components/BookingView.tsx:85 | the `map` gives one parse result per entry, in order |
| `Validation.Sizes` | src/components/BookingView.tsx:85 | once no entry is NaN, the sizes sent are the parsed numbers, one per entry |
| `Validation.Verdict.Text` | src/components/BookingView.tsx:64-108 | the six messages, with the player count in the count and blank messages, the bounds rendered as 20 and 60, and "bana" or "banaor" by lane count |
| `Validation.Validate` | src/components/BookingView.tsx:64-116 | each verdict is returned exactly when its rule is the first one broken, in the order date/time, count, blank, numeric, range, capacity; a draft is accepted exactly when it meets all rules together (`Admissible`) |
| `Validation.AcceptedRequestIsWellFormed` | src/components/BookingView.tsx:69-116 | an accepted request has `when` = date + "T" + time, the draft's lanes and players, one parsed size per player, all within 20..60, at most 4 players per lane, and at least one lane when there is a player |
| `Validation.NoLanesMeansOverCapacity` | src/components/BookingView.tsx:101-109 | with valid shoes and at least one player, a lane count of 0 or less always gives the capacity error, which is a general error |
| `Validation.CountMismatchExample` | src/components/BookingView.tsx:72-75 | 3 players with sizes "25","30" give the count error with the text "exakt 3", not a later error |
| `Validation.OutOfRangeExample` | src/components/BookingView.tsx:92-98 | sizes "19","70","45" for 3 players give the range error |
| `Validation.RangeIsFirstBroken` | src/components/BookingView.tsx:92-98 | when every entry is filled in and numeric and one is outside 20..60, the range error is reported |
| `Replies.KeyFromJson` | src/components/BookingView.tsx:133-139 | a string body gives itself trimmed; an object gives its `key` trimmed when that is present, else its `apiKey` trimmed, else ""; a chosen field that is not a string makes `.trim()` throw (`None`); any other body gives "" |
| `Replies.ReadKey` | src/components/BookingView.tsx:132-143 | corrected stage: the key is what the inner try block yields; when the body is not JSON or the chosen field is not a string, it is the trimmed body text |
| `Replies.FetchKey` | src/components/BookingView.tsx:122-147 | a network failure gives a TypeError; a non-ok status gives the key-fetch error; otherwise the key read from the body is taken, and an empty key is refused |
| `Replies.FetchKeyAsWritten` | src/components/BookingView.tsx:126-147 | as written, a key body that is not JSON, or whose chosen `key`/`apiKey` field is not a string, ends in a TypeError, because `text()` is called on an already consumed body; an accepted key is non-empty |
| `Replies.FetchedKeyIsTrimmed` | src/components/BookingView.tsx:130-147 | every key the stage accepts is non-empty and trimmed |
| `Replies.KeyFromJsonIsTrimmed` | src/components/BookingView.tsx:133-139 | whatever the inner try block yields is already trimmed |
| `Replies.KeyFromStringBody` | src/components/BookingView.tsx:134-135 | a body decoding to a string gives that string trimmed, and it is refused when the trimmed string is empty |
| `Replies.KeyTakesPrecedence` | src/components/BookingView.tsx:136-138 | a present string `key` wins over `apiKey`, even when it trims to "", and is then refused |
| `Replies.ApiKeyAsFallback` | src/components/BookingView.tsx:138 | `apiKey` is used when `key` is absent or null |
| `Replies.KeyFromPlainText` | src/components/BookingView.tsx:140-143 | corrected stage: a body that is not JSON gives its text trimmed |
| `Replies.ApiKeyExample` | src/components/BookingView.tsx:138 | `{"apiKey":" abc123 "}` gives exactly "abc123" |
| `Replies.TrimPaddedKey` | src/components/BookingView.tsx:138 | " abc123 " trims to "abc123" |
| `Replies.TextFallbackLostAsWritten` | src/components/BookingView.tsx:132-143 | as written, a non-JSON key body such as `abc123` ends in a TypeError, while the corrected stage gives the trimmed text; the two agree on every body the inner try block handles |
| `Replies.BookingErrorMessage` | src/components/BookingView.tsx:162-173 | the error is either the fixed default or a string `message` of the decoded, truthy error body |
| `Replies.ServerMessageShown` | src/components/BookingView.tsx:166-168 | `{"message": m}` with a string m shows exactly m |
| `Replies.DefaultMessageOtherwise` | src/components/BookingView.tsx:163-172 | an undecodable body, a non-object body, an array, or an object without a string `message` shows the default |
| `Replies.FromDetails` | src/components/BookingView.tsx:183-192 | when/lanes/people/shoes/price/active are copied as they are; `id` is `bookingId`, else `id`, else "" |
| `Replies.AsResponse` | src/components/BookingView.tsx:204-205 | a passed-through object keeps its own seven fields as they are, `id` included, with no fallback |
| `Replies.Normalize` | src/components/BookingView.tsx:181-209 | the "invalid response" error is returned exactly when the body is not a non-null object; a truthy `bookingDetails` is extracted first; otherwise a string `body` is decoded and extracted, giving a SyntaxError when it is not JSON and a TypeError when it decodes to null; any other object is passed through |
| `Replies.BodyStringAsDetails` | src/components/BookingView.tsx:193-203 | a string `body` decoding to an object is normalised exactly like that object sent as `bookingDetails` |
| `Replies.FlatObjectPassedThrough` | src/components/BookingView.tsx:204-206 | an object with neither a truthy `bookingDetails` nor a string `body` is passed through as it is |
| `Replies.ExtractedIdPresent` | src/components/BookingView.tsx:190 | an extracted booking's `id` is never null or undefined |
| `Replies.DetailsExample` | src/components/BookingView.tsx:182-192 | the worked `bookingDetails` example with `bookingId` "B1" gives `id` "B1", the other fields copied, and a well-typed result |
| `Replies.PostBooking` | src/components/BookingView.tsx:150-209 | a network failure gives a TypeError; a non-ok status gives the chosen error message; an undecodable ok body gives a SyntaxError; otherwise the result is the normalised body |
| `Replies.RunExchange` | src/components/BookingView.tsx:120-209 | the booking call is issued exactly when the key stage succeeds, carrying the fetched key and the request; a failed key stage ends with its own error, otherwise the outcome is the booking stage's |
| `Replies.KeyStageGuardsBooking` | src/components/BookingView.tsx:120-160 | a failed key stage issues no booking call and reports its own error; a successful one issues exactly the call carrying the fetched key as `x-api-key` and the request unchanged; that key is non-empty and trimmed |
| `BookingView.Resized` | src/components/BookingView.tsx:31-38 | the new list has the new length, keeps the old entries at every index both lists have, and holds "" in every added slot |
| `BookingView.ResizeBackRestores` | src/components/BookingView.tsx:31-38 | growing the list and then shrinking it back restores it |
| `BookingView.ShrinkThenGrowBlanksTail` | src/components/BookingView.tsx:31-38 | shrinking and growing back keeps the surviving entries and blanks the dropped ones |
| `BookingView.BookingForm.constructor` | src/components/BookingView.tsx:15-24 | the initial form has an empty date and time, 1 lane, 1 player, one empty shoe entry, no errors, not loading, and meets the invariant |
| `BookingView.BookingForm.SetDate` | src/components/BookingView.tsx:241 | the date becomes the value entered |
| `BookingView.BookingForm.SetTime` | src/components/BookingView.tsx:252 | the time becomes the value entered |
| `BookingView.BookingForm.SetLanes` | src/components/BookingView.tsx:264 | the lane count becomes the value entered, unchecked |
| `BookingView.BookingForm.HandlePeopleChange` | src/components/BookingView.tsx:27-39 | a value below 1 changes nothing; otherwise the player count becomes the value and the shoe list is resized to it; the invariant is kept |
| `BookingView.BookingForm.HandleShoeSizeChange` | src/components/BookingView.tsx:41-51 | exactly one entry is replaced; the length and every other entry stay; the invariant is kept |
| `BookingView.BookingForm.BeginSubmit` | src/components/BookingView.tsx:59-118 | both error slots are cleared; a refused draft puts its verdict's text in the shoe slot or the general slot, gives no request and leaves the loading flag alone; an accepted draft gives the validated request and sets the loading flag |
| `BookingView.BookingForm.Settle` | src/components/BookingView.tsx:211-221 | success reports the booking to the parent; failure shows its error; the loading flag is always cleared |
| `BookingView.BookingForm.HandleSubmit` | src/components/BookingView.tsx:59-222 | a refused draft fetches no key, posts nothing and shows its verdict's text in the shoe slot or the general slot, clearing the other; an accepted one runs the key stage and then, only on success, the booking stage; the result is reported or its error shown, loading ends false, and the draft is unchanged |

## Left out

- The JSX rendering (`BookingView.tsx:225-310`), `ConfirmationView.tsx` and `App.tsx` are not modelled, apart from the input handlers they call.
- The browser's constraint validation is not modelled. The inputs carry `required` on date and time (`BookingView.tsx:242`, `253`), `required` and `min={1}` on the lane count (`262`, `265`), and `required`, `min={20}` and `max={60}` on the shoe fields (`289-291`), and the form has no `noValidate`, so a validating browser does not fire `submit` for such drafts. `MissingDateTime`, the shoe verdicts and the capacity error for 0 or fewer lanes are what `handleSubmit` itself answers for drafts that reach it, for instance from a browser that does not validate.
- `fetch` is not modelled. Its URLs, headers, request serialisation and `async` ordering are I/O. Each reply is an input `Reply`, and the posted call is recorded as a `Post`: the key header plus the request value.
- JSON text is not parsed. Decoding is the `parse` parameter. Numbers are integers, so floating-point prices and sizes are not modelled.
- `Number()` is not modelled. Its handling of white space, hex, exponents and fractions on shoe strings is the `num` parameter. A NaN or fractional player or lane count is not modelled: both counts are integers.
- SyntaxError and TypeError messages are not modelled. They depend on the browser, so the model keeps only the kind of error (`SyntaxErrorText`, `TypeErrorText`).
- The fallback "Något gick fel. Försök igen om en liten stund." is not modelled. It is shown only for a thrown value that is not an `Error`, and nothing in this handler throws one.
- React state updates are modelled as immediate assignments. React batches them and applies them later.
- A second submit while one is in flight is not modelled. The code has no guard; only the button is disabled.
- BookingView.BookingForm.HandleShoeSizeChange: requires an index inside the list. The form only calls it for existing fields (`BookingView.tsx:285-293`). In JavaScript, a write past the end would lengthen the array.
- Replies.AsResponse: keeps only the seven fields of `BookingResponse`. A passed-through object's other properties are dropped.
- BookingView.BookingForm.HandleSubmit: composes the corrected key stage `Replies.FetchKey`. As written, a plain-text key body such as `abc123` ends the handler with a TypeError and posts nothing (see "## Findings" and `Replies.FetchKeyAsWritten`).
- Replies.RunExchange: uses the corrected key stage, for the same reason.
- Replies.FetchKeyAsWritten: a `Reply` does not tell a null body (status 204 or 205) from an empty one. With a null body `json()` rejects without consuming anything, `text()` resolves to "", and the code refuses the key with "Ogiltig API-nyckel från servern."; the model gives a TypeError there, as for an empty body that `json()` consumed.
- JsValues.Get: arrays have none of the properties the form reads. Their `length` and index properties are never read here and are not modelled.

## Findings

| source | as written | input that shows it | evidently intended | confidence | as-written member | corrected member |
|---|---|---|---|---|---|---|
| src/components/BookingView.tsx:140-143 | when `keyResponse.json()` fails, the catch block calls `keyResponse.text()`; the first call has already consumed the body, so under the Fetch standard this call rejects with a TypeError | the key endpoint answers 200 with the plain-text body `abc123` | the key is the trimmed body text, "abc123" | not executed | `Replies.FetchKeyAsWritten` | `Replies.FetchKey` |

`Replies.TextFallbackLostAsWritten` proves the difference between the two members. The rest of the model uses `Replies.FetchKey`.

=== FILE: booking_types.dfy ===
/** The request the form sends and the result it hands to the confirmation
    screen. */
module BookingTypes {
  import opened JsValues

  /** What is POSTed to the booking endpoint. */
  datatype BookingRequest = BookingRequest(when: string, lanes: int, people: int, shoes: seq<int>)

  /** What the form reports on success. The client never checks the types of
      the fields the server sends, so each field holds whatever JavaScript
      value the server supplied (`Undefined` when it was missing). */
  datatype BookingResponse = BookingResponse(
    when: Value, lanes: Value, people: Value, shoes: Value,
    price: Value, id: Value, active: Value)

  /** The shape the declared `BookingResponse` type promises; expected of the
      server but not checked by the client. */
  predicate WellTyped(r: BookingResponse) {
    r.when.Str? && r.lanes.Num? && r.people.Num?
    && r.shoes.Arr? && (forall v <- r.shoes.items :: v.Num?)
    && r.price.Num? && r.id.Str? && r.active.Bool?
  }
}

=== FILE: booking_view.dfy ===
/** The booking form controller: the draft fields, the error slots and the
    loading flag it updates in place, and the handlers that change them. */
module BookingView {
  import opened JsValues
  import opened BookingTypes
  import opened Validation
  import opened Replies

  /** The shoe list after the player count changes to `n`: the first
      entries are kept, the list is cut or padded with "" to length `n`. */
  function Resized(prev: seq<string>, n: nat): (r: seq<string>)
    ensures |r| == n
    ensures forall i :: 0 <= i < n && i < |prev| ==> r[i] == prev[i]
    ensures forall i :: |prev| <= i < n ==> r[i] == ""
  {
    if n > |prev| then prev + seq(n - |prev|, _ => "") else prev[..n]
  }

  /** Growing the list and shrinking it back gives the original list. */
  lemma ResizeBackRestores(prev: seq<string>, n: nat)
    requires n >= |prev|
    ensures Resized(Resized(prev, n), |prev|) == prev
  {
  }

  /** Shrinking and growing back keeps the kept entries and blanks the rest. */
  lemma ShrinkThenGrowBlanksTail(prev: seq<string>, n: nat)
    requires n <= |prev|
    ensures Resized(Resized(prev, n), |prev|) == prev[..n] + seq(|prev| - n, _ => "")
  {
  }

  class BookingForm {
    var date: string
    var time: string
    var lanes: int
    var people: int
    var shoeSizes: seq<string>
    var error: Option<ErrorText>
    var shoeError: Option<string>
    var loading: bool

    /** One shoe entry per player, and at least one player. */
    ghost predicate Valid()
      reads this
    {
      people >= 1 && |shoeSizes| == people
    }

    /** The fields the submit checks read. */
    function Current(): Draft
      reads this
    {
      Draft(date, time, lanes, people, shoeSizes)
    }

    /** The form as first shown: one lane, one player, one empty shoe entry. */
    constructor ()
      ensures Valid()
      ensures date == "" && time == "" && lanes == 1 && people == 1 && shoeSizes == [""]
      ensures error == None && shoeError == None && !loading
    {
      date, time := "", "";
      lanes, people := 1, 1;
      shoeSizes := [""];
      error, shoeError := None, None;
      loading := false;
    }

    method SetDate(value: string)
      modifies this`date
      ensures date == value
    {
      date := value;
    }

    method SetTime(value: string)
      modifies this`time
      ensures time == value
    {
      time := value;
    }

    /** The lane count is taken as entered, without any check. */
    method SetLanes(value: int)
      modifies this`lanes
      ensures lanes == value
    {
      lanes := value;
    }

    /** A new player count below 1 is ignored; otherwise the count is taken
        and the shoe list resized to it, keeping the entries it still has
        room for and adding empty ones. */
    method HandlePeopleChange(value: int)
      requires Valid()
      modifies this`people, this`shoeSizes
      ensures Valid()
      ensures value < 1 ==> people == old(people) && shoeSizes == old(shoeSizes)
      ensures value >= 1 ==> people == value && shoeSizes == Resized(old(shoeSizes), value)
    {
      if value < 1 {
        return;
      }
      people := value;
      var copy := shoeSizes;
      if value > |copy| {
        shoeSizes := copy + seq(value - |copy|, _ => "");
      } else {
        shoeSizes := copy[..value];
      }
    }

    /** Replaces the entry of one shoe field; the list keeps its length. */
    method HandleShoeSizeChange(index: nat, value: string)
      requires Valid()
      requires index < |shoeSizes|
      modifies this`shoeSizes
      ensures Valid()
      ensures shoeSizes == old(shoeSizes)[index := value]
    {
      var copy := shoeSizes;
      copy := copy[index := value];
      shoeSizes := copy;
    }

    /** The synchronous start of the submit handler: both error slots are
        cleared, the checks run in order, the first broken rule is reported in
        its slot, and only a draft that passes them all gives a request and
        switches the loading flag on. The draft is never changed. */
    method BeginSubmit(num: NumberParser) returns (request: Option<BookingRequest>)
      modifies this`error, this`shoeError, this`loading
      ensures var v := Validate(Current(), num);
        && (v.Accepted? ==> request == Some(v.request) && error == None && shoeError == None && loading)
        && (!v.Accepted? && v.IsShoeProblem() ==>
              request == None && shoeError == Some(v.Text()) && error == None && loading == old(loading))
        && (!v.Accepted? && !v.IsShoeProblem() ==>
              request == None && error == Some(Message(v.Text())) && shoeError == None && loading == old(loading))
    {
      error := None;
      shoeError := None;
      request := None;

      if date == "" || time == "" {
        error := Some(Message(MissingDateTime.Text()));
        return;
      }

      var when := date + "T" + time;

      if |shoeSizes| != people {
        shoeError := Some(ShoeCountMismatch(people).Text());
        return;
      }

      if AnySatisfies(shoeSizes, IsBlank) {
        shoeError := Some(BlankShoe(people).Text());
        return;
      }

      var nums := Numbers(shoeSizes, num);
      if AnySatisfies(nums, IsNaN) {
        shoeError := Some(InvalidShoeNumber.Text());
        return;
      }

      if AnySatisfies(nums, OutOfRange) {
        shoeError := Some(ShoeOutOfRange.Text());
        return;
      }

      var maxPeople := lanes * PlayersPerLane;
      if people > maxPeople {
        error := Some(Message(OverCapacity(people, lanes).Text()));
        return;
      }

      request := Some(BookingRequest(when, lanes, people, Sizes(nums)));
      loading := true;
    }

    /** The end of the submit handler: a successful exchange reports the
        booking to the parent, a failed one shows its error; either way the
        loading flag is switched off. */
    method Settle(outcome: Result<BookingResponse>) returns (reported: Option<BookingResponse>)
      modifies this`error, this`loading
      ensures !loading
      ensures outcome.Ok? ==> reported == Some(outcome.value) && error == old(error)
      ensures outcome.Err? ==> reported == None && error == Some(outcome.error)
    {
      reported := None;
      match outcome {
        case Ok(booking) =>
          reported := Some(booking);
        case Err(e) =>
          error := Some(e);
      }
      loading := false;
    }

    /** The whole submit handler with the two server replies as inputs. A
        draft the checks refuse issues no request at all; otherwise the key is
        fetched and, only if that succeeds, the booking is posted. The draft
        itself is left as it was, for correction and resubmission. */
    method HandleSubmit(num: NumberParser, parse: JsonParser, keyReply: Reply, bookingReply: Reply)
      returns (keyRequested: bool, posted: Option<Post>, reported: Option<BookingResponse>)
      requires Valid()
      modifies this`error, this`shoeError, this`loading
      ensures Valid() && Current() == old(Current())
      ensures !old(Validate(Current(), num)).Accepted? ==>
        !keyRequested && posted == None && reported == None && loading == old(loading)
      ensures var v := old(Validate(Current(), num));
        && (!v.Accepted? && v.IsShoeProblem() ==> shoeError == Some(v.Text()) && error == None)
        && (!v.Accepted? && !v.IsShoeProblem() ==> error == Some(Message(v.Text())) && shoeError == None)
      ensures old(Validate(Current(), num)).Accepted? ==>
        var x := RunExchange(old(Validate(Current(), num)).request, keyReply, bookingReply, parse);
        && keyRequested && posted == x.posted && !loading && shoeError == None
        && (x.outcome.Ok? ==> reported == Some(x.outcome.value) && error == None)
        && (x.outcome.Err? ==> reported == None && error == Some(x.outcome.error))
    {
      keyRequested, posted, reported := false, None, None;
      var request := BeginSubmit(num);
      if request.None? {
        return;
      }
      keyRequested := true;
      var x := RunExchange(request.value, keyReply, bookingReply, parse);
      posted := x.posted;
      reported := Settle(x.outcome);
    }
  }
}

=== FILE: js_values.dfy ===
/** The few JavaScript semantics the booking form relies on: the shape of a
    decoded JSON value, truthiness, `??`, property reads, `String.prototype.trim`
    and the decimal rendering of a number inside a template string. */
module JsValues {

  datatype Option<+T> = None | Some(value: T)

  /** A JavaScript value as the form inspects it. JSON numbers are modelled as
      integers; `Undefined` is what reading a missing property yields. */
  datatype Value =
    | Undefined
    | Null
    | Bool(b: bool)
    | Num(n: int)
    | Str(s: string)
    | Arr(items: seq<Value>)
    | Obj(fields: map<string, Value>)

  /** `JSON.parse` (and `response.json()`) as an input of the model:
      `None` stands for the SyntaxError it throws on malformed text. */
  type JsonParser = string -> Option<Value>

  /** The values for which `if (v)` takes the then-branch. */
  predicate Truthy(v: Value) {
    match v
    case Undefined => false
    case Null => false
    case Bool(b) => b
    case Num(n) => n != 0
    case Str(s) => s != ""
    case Arr(_) => true
    case Obj(_) => true
  }

  /** `typeof v === "object"` for a value that is not null. */
  predicate IsObject(v: Value) {
    v.Arr? || v.Obj?
  }

  /** The values `??` replaces. */
  predicate IsNullish(v: Value) {
    v.Undefined? || v.Null?
  }

  /** `a ?? b` */
  function Coalesce(a: Value, b: Value): (r: Value)
    ensures !IsNullish(a) ==> r == a
    ensures IsNullish(a) ==> r == b
  {
    if IsNullish(a) then b else a
  }

  /** `v.key`. Reading a property of null or undefined throws a TypeError, so
      callers must show `v` is neither. Arrays and primitives have none of the
      named properties the form reads. */
  function Get(v: Value, key: string): (r: Value)
    requires !IsNullish(v)
    ensures r != Undefined ==> v.Obj? && key in v.fields && r == v.fields[key]
    ensures v.Obj? && key in v.fields ==> r == v.fields[key]
  {
    if v.Obj? && key in v.fields then v.fields[key] else Undefined
  }

  /** The characters `String.prototype.trim` removes: WhiteSpace and
      LineTerminator of ECMAScript (sections 12.2 and 12.3 of ECMA-262). */
  predicate IsWhiteSpace(c: char) {
    c == '\t' || c == '\n' || c == '\U{B}' || c == '\U{C}' || c == '\r' || c == ' '
    || c == '\U{A0}' || c == '\U{1680}' || ('\U{2000}' <= c <= '\U{200A}')
    || c == '\U{2028}' || c == '\U{2029}' || c == '\U{202F}' || c == '\U{205F}'
    || c == '\U{3000}' || c == '\U{FEFF}'
  }

  /** Drops the leading white space. */
  function TrimStart(s: string): string {
    if s != [] && IsWhiteSpace(s[0]) then TrimStart(s[1..]) else s
  }

  /** Drops the trailing white space. */
  function TrimEnd(s: string): string {
    if s != [] && IsWhiteSpace(s[|s| - 1]) then TrimEnd(s[..|s| - 1]) else s
  }

  /** `s.trim()`: no longer than `s`, and neither end is white space. */
  function Trim(s: string): (r: string)
    ensures |r| <= |s|
    ensures r != [] ==> !IsWhiteSpace(r[0]) && !IsWhiteSpace(r[|r| - 1])
  {
    TrimStartSpec(s);
    TrimEndSpec(TrimStart(s));
    TrimEnd(TrimStart(s))
  }

  /** `TrimStart` gives the longest suffix of `s` that does not start with
      white space: everything before it is white space. */
  lemma {:induction false} TrimStartSpec(s: string)
    ensures var r := TrimStart(s);
      |r| <= |s| && r == s[|s| - |r|..]
      && (forall i :: 0 <= i < |s| - |r| ==> IsWhiteSpace(s[i]))
      && (r != [] ==> !IsWhiteSpace(r[0]))
  {
    if s != [] && IsWhiteSpace(s[0]) {
      TrimStartSpec(s[1..]);
      var r := TrimStart(s);
      forall i | 0 < i < |s| - |r| ensures IsWhiteSpace(s[i]) {
        assert s[i] == s[1..][i - 1];
      }
    }
  }

  /** `TrimEnd` gives the longest prefix of `s` that does not end with white
      space: everything after it is white space. */
  lemma {:induction false} TrimEndSpec(s: string)
    ensures var r := TrimEnd(s);
      |r| <= |s| && r == s[..|r|]
      && (forall i :: |r| <= i < |s| ==> IsWhiteSpace(s[i]))
      && (r != [] ==> !IsWhiteSpace(r[|r| - 1]))
  {
    if s != [] && IsWhiteSpace(s[|s| - 1]) {
      var init := s[..|s| - 1];
      TrimEndSpec(init);
      var r := TrimEnd(s);
      assert r == init[..|r|];
      forall i | |r| <= i < |s| - 1 ensures IsWhiteSpace(s[i]) {
        assert s[i] == init[i];
      }
    }
  }

  /** The trimmed string is a slice of the original, with white space only
      on either side of it, and neither end of it is white space. */
  lemma TrimIsCore(s: string)
    ensures exists lo, hi ::
      && 0 <= lo <= hi <= |s| && Trim(s) == s[lo..hi]
      && (forall i :: 0 <= i < lo ==> IsWhiteSpace(s[i]))
      && (forall i :: hi <= i < |s| ==> IsWhiteSpace(s[i]))
    ensures Trim(s) != [] ==> !IsWhiteSpace(Trim(s)[0]) && !IsWhiteSpace(Trim(s)[|Trim(s)| - 1])
  {
    var t := TrimStart(s);
    var u := TrimEnd(t);
    TrimStartSpec(s);
    TrimEndSpec(t);
    var lo := |s| - |t|;
    var hi := lo + |u|;
    assert t == s[lo..];
    assert u == t[..|u|];
    assert u == s[lo..hi];
    forall i | hi <= i < |s| ensures IsWhiteSpace(s[i]) {
      assert s[i] == t[i - lo];
    }
    if u != [] {
      assert u[0] == t[0];
    }
  }

  /** A string trims to "" exactly when every character is white space. */
  lemma {:induction false} TrimEmptyIffAllWhiteSpace(s: string)
    ensures Trim(s) == "" <==> forall i :: 0 <= i < |s| ==> IsWhiteSpace(s[i])
  {
    var t := TrimStart(s);
    TrimStartSpec(s);
    TrimEndSpec(t);
    if Trim(s) != "" {
      assert !IsWhiteSpace(Trim(s)[0]);
      assert Trim(s)[0] == t[0] == s[|s| - |t|];
    }
  }

  /** Trimming twice trims nothing more. */
  lemma TrimIdempotent(s: string)
    ensures Trim(Trim(s)) == Trim(s)
  {
    var t := Trim(s);
    TrimIsCore(s);
    if t != [] {
      assert !IsWhiteSpace(t[0]);
      assert TrimStart(t) == t;
      assert !IsWhiteSpace(t[|t| - 1]);
      assert TrimEnd(t) == t;
    }
  }

  function DigitChar(d: nat): char
    requires d < 10
  {
    "0123456789"[d]
  }

  function NatToDecimal(n: nat): string
  {
    if n < 10 then [DigitChar(n)] else NatToDecimal(n / 10) + [DigitChar(n % 10)]
  }

  /** `${n}` for an integral number. */
  function IntToString(n: int): string
  {
    if n < 0 then "-" + NatToDecimal(-n) else NatToDecimal(n)
  }
}

=== FILE: replies.dfy ===
/** The network half of the submit handler with the HTTP layer replaced by
    its answers: fetching the API key, posting the booking, and normalising
    the shapes a successful booking reply can take. The two calls form a
    two-stage pipeline: a failed key fetch never reaches the booking call. */
module Replies {
  import opened JsValues
  import opened BookingTypes

  /** What `fetch` delivers: a response with its `ok` flag and body text, or
      a rejection (a TypeError) when the network fails. */
  datatype Reply = Reply(ok: bool, text: string) | NetworkFailure

  /** The text that ends up in the general error slot. Errors the form throws
      itself carry their message; the message of a SyntaxError or TypeError
      raised by the browser depends on the browser, so only its kind is kept. */
  datatype ErrorText = Message(text: string) | SyntaxErrorText | TypeErrorText

  datatype Result<+T> = Ok(value: T) | Err(error: ErrorText)

  const KeyFetchFailed := "Kunde inte hämta API-nyckel. Försök igen senare."
  const InvalidKey := "Ogiltig API-nyckel från servern."
  const BookingFailed := "Det gick inte att genomföra bokningen. Servern är instabil, försök igen."
  const InvalidResponse := "Ogiltigt svar från servern."

  // ---------------------------------------------------------------------------
  // Stage 1: the API key
  // ---------------------------------------------------------------------------

  /** The inner try block on a decoded key body: a bare string, else
      `key ?? apiKey ?? ""` of an object, trimmed; any other value gives "".
      `None` is the TypeError `.trim()` throws when the chosen field is not a
      string. */
  function KeyFromJson(data: Value): (r: Option<string>)
    ensures data.Str? ==> r == Some(Trim(data.s))
    ensures !data.Str? && !IsObject(data) ==> r == Some("")
    ensures data.Arr? ==> r == Some("")
    ensures data.Obj? && !IsNullish(Get(data, "key")) ==>
      (r.Some? <==> Get(data, "key").Str?)
      && (Get(data, "key").Str? ==> r == Some(Trim(Get(data, "key").s)))
    ensures data.Obj? && IsNullish(Get(data, "key")) && !IsNullish(Get(data, "apiKey")) ==>
      (r.Some? <==> Get(data, "apiKey").Str?)
      && (Get(data, "apiKey").Str? ==> r == Some(Trim(Get(data, "apiKey").s)))
    ensures data.Obj? && IsNullish(Get(data, "key")) && IsNullish(Get(data, "apiKey")) ==> r == Some("")
  {
    match data
    case Str(s) => Some(Trim(s))
    case Arr(_) => Some("")
    case Obj(_) =>
      var picked := Coalesce(Coalesce(Get(data, "key"), Get(data, "apiKey")), Str(""));
      if picked.Str? then Some(Trim(picked.s)) else None
    case _ => Some("")
  }

  /** The key read from the body text, with the plain-text fallback working:
      whatever the inner try block cannot handle is replaced by the whole
      body text, trimmed. */
  function ReadKey(text: string, parse: JsonParser): (r: string)
    ensures parse(text).Some? && KeyFromJson(parse(text).value).Some? ==>
      r == KeyFromJson(parse(text).value).value
    ensures parse(text).None? || KeyFromJson(parse(text).value).None? ==> r == Trim(text)
  {
    match parse(text)
    case None => Trim(text)
    case Some(data) =>
      match KeyFromJson(data)
      case Some(k) => k
      case None => Trim(text)
  }

  /** The key stage: a failed request or status gives its error; an empty
      key is refused. */
  function FetchKey(reply: Reply, parse: JsonParser): (r: Result<string>)
    ensures reply.NetworkFailure? ==> r == Err(TypeErrorText)
    ensures reply.Reply? && !reply.ok ==> r == Err(Message(KeyFetchFailed))
    ensures reply.Reply? && reply.ok ==>
      r == if ReadKey(reply.text, parse) == "" then Err(Message(InvalidKey)) else Ok(ReadKey(reply.text, parse))
  {
    match reply
    case NetworkFailure => Err(TypeErrorText)
    case Reply(ok, text) =>
      if !ok then Err(Message(KeyFetchFailed))
      else
        var key := ReadKey(text, parse);
        if key == "" then Err(Message(InvalidKey)) else Ok(key)
  }

  /** The key stage as the code is written: by the time the catch block asks
      for `keyResponse.text()`, `keyResponse.json()` has already consumed the
      body, so that call rejects with a TypeError instead of giving the text. */
  function FetchKeyAsWritten(reply: Reply, parse: JsonParser): (r: Result<string>)
    ensures reply.Reply? && reply.ok && parse(reply.text).None? ==> r == Err(TypeErrorText)
    ensures reply.Reply? && reply.ok && parse(reply.text).Some? && KeyFromJson(parse(reply.text).value).None? ==>
      r == Err(TypeErrorText)
    ensures r.Ok? ==> r.value != ""
  {
    match reply
    case NetworkFailure => Err(TypeErrorText)
    case Reply(ok, text) =>
      if !ok then Err(Message(KeyFetchFailed))
      else
        match parse(text)
        case None => Err(TypeErrorText)
        case Some(data) =>
          match KeyFromJson(data)
          case None => Err(TypeErrorText)
          case Some(key) => if key == "" then Err(Message(InvalidKey)) else Ok(key)
  }

  /** What the inner try block yields has nothing left to trim. */
  lemma KeyFromJsonIsTrimmed(data: Value)
    requires KeyFromJson(data).Some?
    ensures Trim(KeyFromJson(data).value) == KeyFromJson(data).value
  {
    match data
    case Str(s) => TrimIdempotent(s);
    case Obj(_) =>
      var picked := Coalesce(Coalesce(Get(data, "key"), Get(data, "apiKey")), Str(""));
      TrimIdempotent(picked.s);
    case _ =>
  }

  /** Every key the stage accepts is non-empty and has nothing left to trim. */
  lemma FetchedKeyIsTrimmed(reply: Reply, parse: JsonParser)
    requires FetchKey(reply, parse).Ok?
    ensures FetchKey(reply, parse).value != ""
    ensures Trim(FetchKey(reply, parse).value) == FetchKey(reply, parse).value
  {
    var text := reply.text;
    if parse(text).Some? && KeyFromJson(parse(text).value).Some? {
      KeyFromJsonIsTrimmed(parse(text).value);
    } else {
      TrimIdempotent(text);
    }
  }

  /** A body that decodes to a string gives that string trimmed. */
  lemma KeyFromStringBody(text: string, parse: JsonParser, s: string)
    requires parse(text) == Some(Str(s))
    ensures FetchKey(Reply(true, text), parse)
         == if Trim(s) == "" then Err(Message(InvalidKey)) else Ok(Trim(s))
  {
  }

  /** On an object body `key` wins over `apiKey` whenever it is present and
      not null, even when it trims to "": the result is then refused, and
      `apiKey` is never consulted. */
  lemma KeyTakesPrecedence(text: string, parse: JsonParser, fields: map<string, Value>, k: string)
    requires parse(text) == Some(Obj(fields))
    requires "key" in fields && fields["key"] == Str(k)
    ensures FetchKey(Reply(true, text), parse)
         == if Trim(k) == "" then Err(Message(InvalidKey)) else Ok(Trim(k))
  {
    assert Get(Obj(fields), "key") == Str(k);
    assert KeyFromJson(Obj(fields)) == Some(Trim(k));
    assert ReadKey(text, parse) == Trim(k);
  }

  /** `apiKey` is used when `key` is absent or null. */
  lemma ApiKeyAsFallback(text: string, parse: JsonParser, fields: map<string, Value>, a: string)
    requires parse(text) == Some(Obj(fields))
    requires "key" !in fields || fields["key"] == Null
    requires "apiKey" in fields && fields["apiKey"] == Str(a)
    ensures FetchKey(Reply(true, text), parse)
         == if Trim(a) == "" then Err(Message(InvalidKey)) else Ok(Trim(a))
  {
    assert KeyFromJson(Obj(fields)) == Some(Trim(a));
    assert ReadKey(text, parse) == Trim(a);
  }

  /** A body that is not JSON gives its text trimmed. */
  lemma KeyFromPlainText(text: string, parse: JsonParser)
    requires parse(text) == None
    ensures FetchKey(Reply(true, text), parse)
         == if Trim(text) == "" then Err(Message(InvalidKey)) else Ok(Trim(text))
  {
  }

  /** `{"apiKey":" abc123 "}` gives exactly "abc123". */
  lemma ApiKeyExample(text: string, parse: JsonParser)
    requires parse(text) == Some(Obj(map["apiKey" := Str(" abc123 ")]))
    ensures FetchKey(Reply(true, text), parse) == Ok("abc123")
  {
    var body := Obj(map["apiKey" := Str(" abc123 ")]);
    assert |"key"| != |"apiKey"|;
    assert Get(body, "key") == Undefined;
    assert Get(body, "apiKey") == Str(" abc123 ");
    TrimPaddedKey();
    assert KeyFromJson(body) == Some("abc123");
    assert ReadKey(text, parse) == "abc123";
  }

  lemma TrimPaddedKey()
    ensures Trim(" abc123 ") == "abc123"
  {
    assert " abc123 "[1..] == "abc123 ";
    assert !IsWhiteSpace('a') && !IsWhiteSpace('3');
    assert TrimStart("abc123 ") == "abc123 ";
    assert TrimStart(" abc123 ") == "abc123 ";
    assert "abc123 "[..6] == "abc123";
    assert TrimEnd("abc123") == "abc123";
    assert TrimEnd("abc123 ") == "abc123";
  }

  /** The two readings of the key stage agree except on a body the inner try
      block cannot handle, where only the corrected one falls back to the
      text: a non-JSON body such as `abc123` is a working key there and a
      TypeError as written. */
  lemma TextFallbackLostAsWritten(reply: Reply, parse: JsonParser)
    ensures reply.Reply? && reply.ok && parse(reply.text) == None && Trim(reply.text) != "" ==>
      FetchKeyAsWritten(reply, parse) == Err(TypeErrorText)
      && FetchKey(reply, parse) == Ok(Trim(reply.text))
    ensures (reply.Reply? && reply.ok ==> parse(reply.text).Some? && KeyFromJson(parse(reply.text).value).Some?) ==>
      FetchKeyAsWritten(reply, parse) == FetchKey(reply, parse)
  {
  }

  // ---------------------------------------------------------------------------
  // Stage 2: the booking
  // ---------------------------------------------------------------------------

  /** The error shown when the booking status is not ok: the server's
      `message` when the body decodes to a truthy value whose `message` is a
      string, else the fixed default. */
  function BookingErrorMessage(text: string, parse: JsonParser): (r: string)
    ensures r == BookingFailed
         || (parse(text).Some? && Truthy(parse(text).value)
             && Get(parse(text).value, "message") == Str(r))
  {
    match parse(text)
    case None => BookingFailed
    case Some(errData) =>
      if Truthy(errData) && Get(errData, "message").Str? then Get(errData, "message").s
      else BookingFailed
  }

  /** A server message that is a string is shown verbatim. */
  lemma ServerMessageShown(text: string, parse: JsonParser, fields: map<string, Value>, m: string)
    requires parse(text) == Some(Obj(fields))
    requires "message" in fields && fields["message"] == Str(m)
    ensures BookingErrorMessage(text, parse) == m
  {
  }

  /** Without a string `message` the default is shown. */
  lemma DefaultMessageOtherwise(text: string, parse: JsonParser)
    requires parse(text).None?
      || !IsObject(parse(text).value)
      || parse(text).value.Arr?
      || (parse(text).value.Obj? && ("message" !in parse(text).value.fields
                                     || !parse(text).value.fields["message"].Str?))
    ensures BookingErrorMessage(text, parse) == BookingFailed
  {
  }

  /** The extraction applied to `bookingDetails` and to a decoded `body`:
      the fields copied as they are, and `id` from `bookingId`, else `id`,
      else "". */
  function FromDetails(d: Value): (r: BookingResponse)
    requires !IsNullish(d)
    ensures r.when == Get(d, "when") && r.lanes == Get(d, "lanes") && r.people == Get(d, "people")
    ensures r.shoes == Get(d, "shoes") && r.price == Get(d, "price") && r.active == Get(d, "active")
    ensures !IsNullish(Get(d, "bookingId")) ==> r.id == Get(d, "bookingId")
    ensures IsNullish(Get(d, "bookingId")) && !IsNullish(Get(d, "id")) ==> r.id == Get(d, "id")
    ensures IsNullish(Get(d, "bookingId")) && IsNullish(Get(d, "id")) ==> r.id == Str("")
  {
    BookingResponse(
      Get(d, "when"), Get(d, "lanes"), Get(d, "people"), Get(d, "shoes"), Get(d, "price"),
      Coalesce(Coalesce(Get(d, "bookingId"), Get(d, "id")), Str("")),
      Get(d, "active"))
  }

  /** `raw as BookingResponse`: the object read as it is, `id` included,
      without any fallback. */
  function AsResponse(raw: Value): (r: BookingResponse)
    requires !IsNullish(raw)
    ensures r.id == Get(raw, "id") && r.when == Get(raw, "when")
    ensures r.lanes == Get(raw, "lanes") && r.people == Get(raw, "people") && r.shoes == Get(raw, "shoes")
    ensures r.price == Get(raw, "price") && r.active == Get(raw, "active")
  {
    BookingResponse(
      Get(raw, "when"), Get(raw, "lanes"), Get(raw, "people"), Get(raw, "shoes"), Get(raw, "price"),
      Get(raw, "id"), Get(raw, "active"))
  }

  /** Normalisation of a decoded success body: a truthy `bookingDetails`,
      then a string `body` decoded and treated the same way, then the object
      itself; anything but a non-null object is refused. A decoded `body`
      that is not JSON raises a SyntaxError, one that is null a TypeError. */
  function Normalize(raw: Value, parse: JsonParser): (r: Result<BookingResponse>)
    ensures r == Err(Message(InvalidResponse)) <==> !(Truthy(raw) && IsObject(raw))
    ensures IsObject(raw) && Truthy(Get(raw, "bookingDetails")) ==>
      r == Ok(FromDetails(Get(raw, "bookingDetails")))
    ensures raw.Obj? && !Truthy(Get(raw, "bookingDetails")) && "body" in raw.fields && raw.fields["body"].Str? ==>
      var body := parse(raw.fields["body"].s);
      && (body.None? ==> r == Err(SyntaxErrorText))
      && (body.Some? && IsNullish(body.value) ==> r == Err(TypeErrorText))
      && (body.Some? && !IsNullish(body.value) ==> r == Ok(FromDetails(body.value)))
    ensures (IsObject(raw) && !Truthy(Get(raw, "bookingDetails"))
             && !(raw.Obj? && "body" in raw.fields && raw.fields["body"].Str?)) ==> r == Ok(AsResponse(raw))
  {
    if !(Truthy(raw) && IsObject(raw)) then Err(Message(InvalidResponse))
    else if Truthy(Get(raw, "bookingDetails")) then Ok(FromDetails(Get(raw, "bookingDetails")))
    else if raw.Obj? && "body" in raw.fields && raw.fields["body"].Str? then
      match parse(raw.fields["body"].s)
      case None => Err(SyntaxErrorText)
      case Some(body) => if IsNullish(body) then Err(TypeErrorText) else Ok(FromDetails(body))
    else Ok(AsResponse(raw))
  }

  /** A `body` string decoding to an object is normalised exactly as if that
      object had come as `bookingDetails`. */
  lemma BodyStringAsDetails(fields: map<string, Value>, b: string, details: map<string, Value>, parse: JsonParser)
    requires "body" in fields && fields["body"] == Str(b)
    requires !Truthy(Get(Obj(fields), "bookingDetails"))
    requires parse(b) == Some(Obj(details))
    ensures Normalize(Obj(fields), parse) == Normalize(Obj(map["bookingDetails" := Obj(details)]), parse)
    ensures Normalize(Obj(fields), parse) == Ok(FromDetails(Obj(details)))
  {
  }

  /** An object with neither a truthy `bookingDetails` nor a string `body` is
      passed through unchanged, so its `id` gets no fallback. */
  lemma FlatObjectPassedThrough(fields: map<string, Value>, parse: JsonParser)
    requires !Truthy(Get(Obj(fields), "bookingDetails"))
    requires "body" !in fields || !fields["body"].Str?
    ensures Normalize(Obj(fields), parse) == Ok(AsResponse(Obj(fields)))
  {
  }

  /** The normalised `id` of an extracted booking is never null or undefined. */
  lemma ExtractedIdPresent(d: Value)
    requires !IsNullish(d)
    ensures !IsNullish(FromDetails(d).id)
  {
  }

  /** The worked example: a `bookingDetails` object with a `bookingId`. */
  lemma DetailsExample(d: Value, parse: JsonParser)
    requires d == Obj(map["when" := Str("2025-11-11T18:00"), "lanes" := Num(1), "people" := Num(2),
                          "shoes" := Arr([Num(42), Num(43)]), "price" := Num(300),
                          "bookingId" := Str("B1"), "active" := Bool(true)])
    ensures var r := Normalize(Obj(map["bookingDetails" := d]), parse);
      r == Ok(BookingResponse(Str("2025-11-11T18:00"), Num(1), Num(2), Arr([Num(42), Num(43)]),
                              Num(300), Str("B1"), Bool(true)))
      && WellTyped(r.value)
  {
    assert Get(Obj(map["bookingDetails" := d]), "bookingDetails") == d;
    assert Get(d, "when") == Str("2025-11-11T18:00");
    assert Get(d, "lanes") == Num(1);
    assert Get(d, "people") == Num(2);
    assert Get(d, "shoes") == Arr([Num(42), Num(43)]);
    assert Get(d, "price") == Num(300);
    assert Get(d, "bookingId") == Str("B1");
    assert Get(d, "active") == Bool(true);
  }

  /** The booking stage: a failed request, a status that is not ok, a body
      that is not JSON, or a body normalisation refuses, each gives its error. */
  function PostBooking(reply: Reply, parse: JsonParser): (r: Result<BookingResponse>)
    ensures reply.NetworkFailure? ==> r == Err(TypeErrorText)
    ensures reply.Reply? && !reply.ok ==> r == Err(Message(BookingErrorMessage(reply.text, parse)))
    ensures reply.Reply? && reply.ok && parse(reply.text).None? ==> r == Err(SyntaxErrorText)
    ensures reply.Reply? && reply.ok && parse(reply.text).Some? ==> r == Normalize(parse(reply.text).value, parse)
  {
    match reply
    case NetworkFailure => Err(TypeErrorText)
    case Reply(ok, text) =>
      if !ok then Err(Message(BookingErrorMessage(text, parse)))
      else
        match parse(text)
        case None => Err(SyntaxErrorText)
        case Some(raw) => Normalize(raw, parse)
  }

  // ---------------------------------------------------------------------------
  // The two stages together
  // ---------------------------------------------------------------------------

  /** The booking call as issued: the `x-api-key` header and the JSON body. */
  datatype Post = Post(apiKey: string, request: BookingRequest)

  /** What the exchange did: the booking call it issued, if any, and how it ended. */
  datatype Exchange = Exchange(posted: Option<Post>, outcome: Result<BookingResponse>)

  /** The key stage, then, only on success, the booking stage. */
  function RunExchange(request: BookingRequest, keyReply: Reply, bookingReply: Reply, parse: JsonParser): (x: Exchange)
    ensures x.posted.Some? <==> FetchKey(keyReply, parse).Ok?
    ensures FetchKey(keyReply, parse).Err? ==> x.outcome == Err(FetchKey(keyReply, parse).error)
    ensures FetchKey(keyReply, parse).Ok? ==>
      x.posted == Some(Post(FetchKey(keyReply, parse).value, request))
      && x.outcome == PostBooking(bookingReply, parse)
  {
    match FetchKey(keyReply, parse)
    case Err(e) => Exchange(None, Err(e))
    case Ok(key) => Exchange(Some(Post(key, request)), PostBooking(bookingReply, parse))
  }

  /** A failed key stage issues no booking call and reports its own error;
      otherwise exactly one call is issued, carrying the request unchanged
      and a non-empty, trimmed key. */
  lemma KeyStageGuardsBooking(request: BookingRequest, keyReply: Reply, bookingReply: Reply, parse: JsonParser)
    ensures var x := RunExchange(request, keyReply, bookingReply, parse);
      (FetchKey(keyReply, parse).Err? ==> x.posted == None && x.outcome == Err(FetchKey(keyReply, parse).error))
      && (FetchKey(keyReply, parse).Ok? ==> x.posted == Some(Post(FetchKey(keyReply, parse).value, request)))
      && (x.posted.Some? ==>
            x.posted.value.request == request
            && x.posted.value.apiKey != ""
            && Trim(x.posted.value.apiKey) == x.posted.value.apiKey
            && x.outcome == PostBooking(bookingReply, parse))
  {
    if FetchKey(keyReply, parse).Ok? {
      FetchedKeyIsTrimmed(keyReply, parse);
    }
  }
}

=== FILE: validation.dfy ===
/** The synchronous part of the submit handler: the ordered chain of input
    checks, each reporting only the first rule that is broken, and the
    booking request built once every check passes. */
module Validation {
  import opened JsValues
  import opened BookingTypes

  const MinShoe := 20
  const MaxShoe := 60
  const PlayersPerLane := 4

  /** `Number(s)` on a shoe-size string as an input of the model: `None`
      stands for NaN. */
  type NumberParser = string -> Option<int>

  /** The form fields the checks read. */
  datatype Draft = Draft(date: string, time: string, lanes: int, people: int, shoeSizes: seq<string>)

  /** The outcome of the checks: the first rule broken, or the request. */
  datatype Verdict =
    | MissingDateTime
    | ShoeCountMismatch(required: int)
    | BlankShoe(required: int)
    | InvalidShoeNumber
    | ShoeOutOfRange
    | OverCapacity(players: int, laneCount: int)
    | Accepted(request: BookingRequest)
  {
    /** Shoe problems are shown in their own slot, the others in the general one. */
    predicate IsShoeProblem() {
      ShoeCountMismatch? || BlankShoe? || InvalidShoeNumber? || ShoeOutOfRange?
    }

    /** The text the form shows for a rejected draft. For more than one lane
        the capacity message appends "or" to "bana", giving "banaor". */
    function Text(): (r: string)
      requires !Accepted?
      ensures MissingDateTime? ==> r == "Välj datum och tid."
      ensures InvalidShoeNumber? ==> r == "En eller flera skostorlekar är inte ett giltigt nummer."
      ensures ShoeOutOfRange? ==> r == "Skostorlekar måste vara mellan 20 och 60."
      ensures ShoeCountMismatch? ==> r == "Antalet skostorlekar måste vara exakt " + IntToString(required) + "."
      ensures BlankShoe? ==>
        r == "Fyll i alla skostorlekar — det måste finnas exakt " + IntToString(required) + " värden."
      ensures OverCapacity? ==>
        r == "Max 4 spelare per bana. Du har " + IntToString(players) + " spelare men bara "
             + IntToString(laneCount) + (if laneCount > 1 then " banaor." else " bana.")
    {
      match this
      case MissingDateTime => "Välj datum och tid."
      case ShoeCountMismatch(n) => "Antalet skostorlekar måste vara exakt " + IntToString(n) + "."
      case BlankShoe(n) => "Fyll i alla skostorlekar — det måste finnas exakt " + IntToString(n) + " värden."
      case InvalidShoeNumber => "En eller flera skostorlekar är inte ett giltigt nummer."
      case ShoeOutOfRange =>
        "Skostorlekar måste vara mellan " + IntToString(MinShoe) + " och " + IntToString(MaxShoe) + "."
      case OverCapacity(p, l) =>
        "Max 4 spelare per bana. Du har " + IntToString(p) + " spelare men bara "
        + IntToString(l) + " bana" + (if l > 1 then "or" else "") + "."
    }
  }

  /** `s.trim() === ""` */
  predicate IsBlank(s: string) {
    Trim(s) == ""
  }

  /** `n < 20 || n > 60`; every comparison with NaN is false. */
  predicate OutOfRange(n: Option<int>) {
    n.Some? && (n.value < MinShoe || n.value > MaxShoe)
  }

  /** `xs.some(p)`: scans from the front and stops at the first match. */
  function AnySatisfies<T>(xs: seq<T>, p: T -> bool): (r: bool)
    ensures r <==> exists i :: 0 <= i < |xs| && p(xs[i])
  {
    if xs == [] then false
    else p(xs[0]) || (assert forall i :: 0 < i < |xs| ==> xs[i] == xs[1..][i - 1];
                      AnySatisfies(xs[1..], p))
  }

  /** `shoeSizes.map((s) => Number(s))` */
  function Numbers(sizes: seq<string>, num: NumberParser): (r: seq<Option<int>>)
    ensures |r| == |sizes| && forall i :: 0 <= i < |sizes| ==> r[i] == num(sizes[i])
  {
    seq(|sizes|, i requires 0 <= i < |sizes| => num(sizes[i]))
  }

  predicate IsNaN(n: Option<int>) {
    n.None?
  }

  /** The parsed sizes once none of them is NaN. */
  function Sizes(nums: seq<Option<int>>): (r: seq<int>)
    requires forall i :: 0 <= i < |nums| ==> nums[i].Some?
    ensures |r| == |nums| && forall i :: 0 <= i < |nums| ==> nums[i] == Some(r[i])
  {
    seq(|nums|, i requires 0 <= i < |nums| && nums[i].Some? => nums[i].value)
  }

  predicate DateTimeGiven(d: Draft) {
    d.date != "" && d.time != ""
  }

  /** Every shoe entry is filled in, numeric and within the allowed range. */
  predicate ShoesValid(d: Draft, num: NumberParser) {
    |d.shoeSizes| == d.people
    && forall i :: 0 <= i < |d.shoeSizes| ==>
         !IsBlank(d.shoeSizes[i]) && num(d.shoeSizes[i]).Some?
         && MinShoe <= num(d.shoeSizes[i]).value <= MaxShoe
  }

  /** The rules a draft must meet to be sent, stated independently of the
      order in which they are checked. */
  predicate Admissible(d: Draft, num: NumberParser) {
    DateTimeGiven(d) && ShoesValid(d, num) && d.people <= d.lanes * PlayersPerLane
  }

  /** The checks of the submit handler, in the order it makes them. Each
      verdict is reported exactly when its rule is the first one broken. */
  function Validate(d: Draft, num: NumberParser): (v: Verdict)
    ensures v == MissingDateTime <==> !DateTimeGiven(d)
    ensures v.ShoeCountMismatch? <==> DateTimeGiven(d) && |d.shoeSizes| != d.people
    ensures v.BlankShoe? <==>
      DateTimeGiven(d) && |d.shoeSizes| == d.people
      && exists i :: 0 <= i < |d.shoeSizes| && IsBlank(d.shoeSizes[i])
    ensures v == InvalidShoeNumber <==>
      DateTimeGiven(d) && |d.shoeSizes| == d.people
      && (forall i :: 0 <= i < |d.shoeSizes| ==> !IsBlank(d.shoeSizes[i]))
      && exists i :: 0 <= i < |d.shoeSizes| && num(d.shoeSizes[i]).None?
    ensures v == ShoeOutOfRange <==>
      DateTimeGiven(d) && |d.shoeSizes| == d.people
      && (forall i :: 0 <= i < |d.shoeSizes| ==> !IsBlank(d.shoeSizes[i]) && num(d.shoeSizes[i]).Some?)
      && exists i :: 0 <= i < |d.shoeSizes| && OutOfRange(num(d.shoeSizes[i]))
    ensures v.OverCapacity? <==>
      DateTimeGiven(d) && ShoesValid(d, num) && d.people > d.lanes * PlayersPerLane
    ensures v.ShoeCountMismatch? || v.BlankShoe? ==> v.required == d.people
    ensures v.OverCapacity? ==> v.players == d.people && v.laneCount == d.lanes
    ensures v.Accepted? <==> Admissible(d, num)
  {
    if d.date == "" || d.time == "" then MissingDateTime
    else if |d.shoeSizes| != d.people then ShoeCountMismatch(d.people)
    else if AnySatisfies(d.shoeSizes, IsBlank) then BlankShoe(d.people)
    else
      var nums := Numbers(d.shoeSizes, num);
      if AnySatisfies(nums, IsNaN) then InvalidShoeNumber
      else if AnySatisfies(nums, OutOfRange) then ShoeOutOfRange
      else if d.people > d.lanes * PlayersPerLane then OverCapacity(d.people, d.lanes)
      else Accepted(BookingRequest(d.date + "T" + d.time, d.lanes, d.people, Sizes(nums)))
  }

  /** An accepted request carries the date and time joined by "T", the lane
      and player counts of the draft, and one parsed size per player, each
      within the allowed range; with at least one player there is at least
      one lane. */
  lemma AcceptedRequestIsWellFormed(d: Draft, num: NumberParser)
    requires Validate(d, num).Accepted?
    ensures var r := Validate(d, num).request;
      r.when == d.date + "T" + d.time && r.lanes == d.lanes && r.people == d.people
      && |r.shoes| == r.people
      && (forall i :: 0 <= i < |r.shoes| ==> num(d.shoeSizes[i]) == Some(r.shoes[i]))
      && (forall i :: 0 <= i < |r.shoes| ==> MinShoe <= r.shoes[i] <= MaxShoe)
      && r.people <= r.lanes * PlayersPerLane
      && (r.people >= 1 ==> r.lanes >= 1)
  {
  }

  /** The lane count is never checked on its own: with shoes that pass and
      at least one player, a lane count of zero or less always ends in the
      capacity error. */
  lemma NoLanesMeansOverCapacity(d: Draft, num: NumberParser)
    requires DateTimeGiven(d) && ShoesValid(d, num)
    requires d.people >= 1 && d.lanes <= 0
    ensures Validate(d, num) == OverCapacity(d.people, d.lanes)
    ensures !Validate(d, num).IsShoeProblem()
  {
  }

  /** Three players with two sizes entered: the count error, not a later one. */
  lemma CountMismatchExample(num: NumberParser)
    ensures Validate(Draft("2025-11-11", "18:00", 1, 3, ["25", "30"]), num) == ShoeCountMismatch(3)
    ensures Validate(Draft("2025-11-11", "18:00", 1, 3, ["25", "30"]), num).Text()
      == "Antalet skostorlekar måste vara exakt 3."
  {
  }

  /** Sizes 19, 70 and 45 for three players: the range error, whatever the
      date, time and lane count. */
  lemma OutOfRangeExample(d: Draft, num: NumberParser)
    requires DateTimeGiven(d) && d.people == 3 && d.shoeSizes == ["19", "70", "45"]
    requires num("19") == Some(19) && num("70") == Some(70) && num("45") == Some(45)
    ensures Validate(d, num) == ShoeOutOfRange
  {
    ExampleSizesParse(d.shoeSizes, num);
    RangeIsFirstBroken(d, num, 0);
  }

  lemma ExampleSizesParse(sizes: seq<string>, num: NumberParser)
    requires sizes == ["19", "70", "45"]
    requires num("19") == Some(19) && num("70") == Some(70) && num("45") == Some(45)
    ensures forall i :: 0 <= i < |sizes| ==> !IsBlank(sizes[i]) && num(sizes[i]).Some?
    ensures OutOfRange(num(sizes[0]))
  {
    NoneBlank(sizes);
    forall i | 0 <= i < |sizes| ensures num(sizes[i]).Some? {
      if i == 0 {
      } else if i == 1 {
      } else {
        assert i == 2;
      }
    }
  }

  lemma RangeIsFirstBroken(d: Draft, num: NumberParser, k: nat)
    requires DateTimeGiven(d) && |d.shoeSizes| == d.people && k < |d.shoeSizes|
    requires forall i :: 0 <= i < |d.shoeSizes| ==> !IsBlank(d.shoeSizes[i]) && num(d.shoeSizes[i]).Some?
    requires OutOfRange(num(d.shoeSizes[k]))
    ensures Validate(d, num) == ShoeOutOfRange
  {
  }

  /** A size written with a leading digit is not blank. */
  lemma NoneBlank(sizes: seq<string>)
    requires forall i :: 0 <= i < |sizes| ==> sizes[i] != [] && '0' <= sizes[i][0] <= '9'
    ensures forall i :: 0 <= i < |sizes| ==> !IsBlank(sizes[i])
  {
    forall i | 0 <= i < |sizes| ensures !IsBlank(sizes[i]) {
      TrimEmptyIffAllWhiteSpace(sizes[i]);
    }
  }
}
